=== FILE: README.md ===
# Object-descriptor helpers, modelled in Dafny

`src/index.js` exports four helpers over the property descriptors of plain JavaScript
objects:

- `getKeysByDescriptor(object, descriptor)` lists the own keys whose `writable`,
  `enumerable` or `configurable` attribute is true.
- `isObjectAnyFrozen(object)` tells whether `Object.preventExtensions`, `Object.seal` or
  `Object.freeze` has been applied.
- `assignLockedValues(object, propertyName)` returns a shallow copy in which
  `propertyName` is non-writable. The key keeps its value when it is an own enumerable key
  of `object`, and is `null` otherwise.
- `freezeAllInObject(object)` returns a frozen shallow copy.

What each helper does is fixed by the ECMA-262 built-ins it calls. The model therefore has
two layers. Section numbers are those of the 2024 edition of ECMA-262.

- `BuiltIns.dfy` holds those built-ins as pure functions on immutable objects. They follow
  the abstract operations of ECMA-262:
  - `Object.defineProperty`: ValidateAndApplyPropertyDescriptor, section 10.1.6.3.
  - `Object.assign`: section 20.1.2.1, through OrdinarySet, section 10.1.9.
  - `Object.freeze` and `Object.seal`: SetIntegrityLevel, section 7.3.15.
  - `Object.isSealed` and `Object.isFrozen`: TestIntegrityLevel, section 7.3.16, under
    sections 20.1.2.18 and 20.1.2.17.
  - `Object.isExtensible` (section 20.1.2.16), `Object.preventExtensions` (section
    20.1.2.20) and `hasOwnProperty` (section 20.1.3.2).
  - `delete`: OrdinaryDelete, section 10.1.10.1.
- `Descriptors.dfy` builds the four helpers on that layer, the way the source does.

A built-in answers `None` where ECMA-262 makes the abstract operation return false. What
the caller then sees depends on the built-in:

- `Object.defineProperty`, `Object.freeze` and `Object.assign` throw a TypeError.
- A plain write `o[key] = v` (`BuiltIns.Set`) is ignored in sloppy mode and throws a
  TypeError in strict mode.
- `delete o[key]` (`BuiltIns.Delete`) evaluates to false in sloppy mode and throws a
  TypeError in strict mode.

The other files:

- `Objects.dfy` is the data model. An object (`JsObject`) is an ordered list of distinct
  string keys, a map from each key to a data property `(value, writable, enumerable,
  configurable)`, and the `[[Extensible]]` flag. Keys are kept in property-creation order,
  as OrdinaryOwnPropertyKeys (section 10.1.11.1) gives them for non-index strings. Values
  are opaque, apart from `undefined` and `null`.
- `Sequences.dfy` holds facts about order-preserving subsequences.
- `Wrappers.dfy` holds `Option`.

Objects are values, so no helper can modify the object it is given: `assignLockedValues`
and `freezeAllInObject` change only the copy they make.

## Model

| member | source | states |
|---|---|---|
| `Descriptors.OwnPropertyDescriptors` | src/index.js:12 | the descriptor entries list the own keys in order, one entry per key, each holding the complete property of its key |
| `Descriptors.GetKeysByDescriptor` | src/index.js:11-14 | a key is in the result iff it is an own key whose named attribute is true; the result keeps own-key order (a subsequence of the keys), has no duplicates, and is empty for an object without own properties |
| `Descriptors.GetKeysByDescriptorIsExact` | src/index.js:11-14 | any key list that lists, in own-key order, exactly the own keys with the attribute set equals the result, so the result is determined by the object |
| `Descriptors.SelectKeys` | src/index.js:12-14 | the filter over descriptor entries keeps exactly the keys of entries whose attribute is true, in entry order |
| `Descriptors.IsObjectAnyFrozen` | src/index.js:22 | the three-way test is true iff the object is not extensible (sealed and frozen objects are never extensible) |
| `Descriptors.LockedObjectsAreAnyFrozen` | src/index.js:17-22 | after preventExtensions, seal or freeze the test answers true; an extensible object answers false |
| `Descriptors.CopyOfEnumerable` | src/index.js:35 | `Object.assign({}, o)` cannot fail; it yields an extensible object holding the own enumerable keys of `o` in order, each with its value and every attribute true |
| `Descriptors.AssignLockedValues` | src/index.js:34-49 | neither defineProperty call fails; the named key is non-writable, enumerable and configurable, keeping its value if it was an own enumerable key and holding null otherwise (then placed last); every other key is an own enumerable key of the input with its value and every attribute true, in the input's order |
| `Descriptors.LockedCopyWritableKeys` | src/index.js:34-48 | the writable keys of the copy are exactly its keys other than the named one, in order |
| `Descriptors.LockedCopyRejectsWrites` | src/index.js:36-40 | writing the named key of the copy is refused, while every other key, existing or new, accepts a write |
| `Descriptors.TwoKeyObjectSelectsBoth` | src/index.js:11-14 | for `{a: 1, b: 2}`, every attribute name selects `[a, b]` |
| `Descriptors.LockedKeyScenarioKeys` | src/index.js:34-48 | locking `a` in `{a: 1, b: 2}` keeps the keys `[a, b]` in order |
| `Descriptors.LockedKeyScenario` | src/index.js:34-48 | after locking `a` in `{a: 1, b: 2}`, the writable keys are `[b]` |
| `Descriptors.LockedKeyOnEmptyObject` | src/index.js:41-47 | locking `x` in `{}` gives exactly `{x: null}` with `x` non-writable, enumerable and configurable |
| `Descriptors.FreezeAllInObject` | src/index.js:57 | the frozen copy cannot fail; it holds the own enumerable keys of the input in order with their values, every property non-writable and non-configurable, and is not extensible, frozen and "any frozen" |
| `Descriptors.FrozenCopyRefusesChanges` | src/index.js:51-57 | on the frozen copy a definition succeeds only when it asks for what the property already has and then changes nothing; every write fails; only deleting an absent key succeeds |
| `BuiltIns.DefineProperty` | src/index.js:37-46 | a new key is refused iff the object is not extensible; a configurable property never refuses; on success the property agrees with every given field, keeps the fields not given (or takes the undefined/false defaults when new), a new key is appended, and nothing else changes |
| `BuiltIns.DefinePropertyIdempotent` | src/index.js:37-39 | repeating a definition that succeeded succeeds again and leaves the object as the first one left it |
| `BuiltIns.NonConfigurableStays` | src/index.js:37-39 | a non-configurable property stays non-configurable and keeps its enumerability through any successful definition, and a non-configurable, non-writable one does not change at all |
| `BuiltIns.SatisfiedIsNoop` | src/index.js:37-39 | a definition that asks an existing property only for what it already has succeeds and changes nothing |
| `BuiltIns.SealedKeepsWrites` | src/index.js:18 | on a sealed object no property can be made configurable again, and a write to an existing key succeeds iff the property is writable |
| `BuiltIns.Set` | src/index.js:35 | a write is refused iff the own property is non-writable, or the key is missing from a non-extensible object; otherwise it replaces only the value, or appends a new property with every attribute true |
| `BuiltIns.Delete` | src/index.js:53 | a deletion is refused iff the property exists and is non-configurable; otherwise it removes only that key and keeps the order of the rest |
| `BuiltIns.SetThenDeleteRestores` | src/index.js:35 | writing a new key to an extensible object and then deleting it gives back the original object, key order included |
| `BuiltIns.Assign` | src/index.js:35 | a completed assignment keeps the target's extensibility and its keys first and in order; copies the value of every own enumerable source property; leaves alone every target property that is not an own enumerable source key, including one a non-enumerable source key names; and adds no other key, each added key holding the source's value with every attribute true |
| `BuiltIns.AssignOverwrites` | src/index.js:35 | a completed assignment replaces only the value of a target property that an own enumerable source key names; its writable, enumerable and configurable attributes stay as they were |
| `BuiltIns.AssignFromOverwrites` | src/index.js:35 | the assignment loop changes only the value of a target property that a remaining enumerable source key names |
| `BuiltIns.AssignAddsInOrder` | src/index.js:35 | the keys after a completed assignment are the target's keys followed by the enumerable source keys the target lacked, in source order |
| `BuiltIns.AddedKeysMembers` | src/index.js:35 | the keys an assignment adds are, once each, exactly the enumerable source keys the target lacks |
| `BuiltIns.AssignFrom` | src/index.js:35 | the assignment loop keeps the target's extensibility and its keys as a prefix |
| `BuiltIns.AssignFromKeepsOthers` | src/index.js:35 | the assignment loop leaves alone every target property that no remaining enumerable source key names |
| `BuiltIns.AssignFromOnlyAdds` | src/index.js:35 | every key the assignment loop adds is a remaining enumerable source key, holding the source's value with every attribute true |
| `BuiltIns.AssignFromAddsInOrder` | src/index.js:35 | the assignment loop appends the keys it adds after the target's keys, in source order |
| `BuiltIns.AssignFromCopies` | src/index.js:35 | the assignment loop copies the value of every remaining enumerable source property |
| `BuiltIns.HasOwnProperty` | src/index.js:36 | the test answers true iff the key is among the object's own keys |
| `BuiltIns.LockFrom` | src/index.js:57 | the SetIntegrityLevel loop never fails, keeps keys and extensibility, and locks exactly the listed properties, keeping their value and enumerability |
| `BuiltIns.SetIntegrityLevel` | src/index.js:57 | it never fails, and afterwards TestIntegrityLevel holds at the requested level with every property locked |
| `BuiltIns.Freeze` | src/index.js:57 | `Object.freeze` never throws; it leaves the object frozen and not extensible, with the same keys and values, every property non-writable and non-configurable |
| `BuiltIns.FreezeIdempotent` | src/index.js:57 | freezing an object that `Object.freeze` produced changes nothing |
| `BuiltIns.Seal` | src/index.js:18 | `Object.seal` never throws; it leaves the object sealed and not extensible, every property non-configurable with writability unchanged |
| `BuiltIns.PreventExtensions` | src/index.js:18 | `Object.preventExtensions` leaves the object not extensible with its properties untouched |
| `BuiltIns.AllAtLevel` | src/index.js:22 | the TestIntegrityLevel loop answers true iff every listed property is non-configurable (and, for frozen, non-writable) |
| `BuiltIns.IsExtensible` | src/index.js:22 | an object is extensible iff it accepts a definition of every key it lacks, and refuses all of them otherwise |
| `BuiltIns.IsSealed` | src/index.js:22 | an object is sealed iff it is not extensible and refuses to delete every key it has |
| `BuiltIns.IsFrozen` | src/index.js:22 | a frozen object is sealed and refuses every write, to an existing or a new key; a sealed object that refuses a write to every key it has is frozen |
| `BuiltIns.TestIntegrityLevel` | src/index.js:22 | sealed/frozen holds iff the object is not extensible and every own property is non-configurable (and, for frozen, non-writable) |
| `BuiltIns.FrozenRefusesChanges` | src/index.js:51-57 | a frozen object accepts a definition only when it asks for nothing new and then stays the same; it refuses every write, and refuses deletion of every key it has |

## Left out

- Accessor (getter/setter) properties. `Object.assign` calls getters, which can run
  arbitrary code. Only data properties are modelled.
- Symbol keys, and the rule that integer-index keys are listed first. Keys are non-index
  strings, listed in creation order.
- Prototype chains. An inherited key counts as absent, because `hasOwnProperty` ignores it.
  Also left out: the `__proto__` setter that `Object.assign` would meet on
  `Object.prototype`, and objects that shadow `hasOwnProperty`.
- Descriptor names other than `writable`, `enumerable` and `configurable`. Line 13 would read
  any field, such as `value`, by truthiness, and a name that is not a field gives an empty
  result. The JSDoc allows only the three names, so `DescriptorName` has only those three.
- SameValue on NaN and on +0/-0. Values are opaque and compared by identity.
- Non-object arguments such as primitives, `null` and `undefined`. The built-ins would
  convert or throw on them. Proxies and other exotic objects are left out too.
- Nested values and deep freezing. Values are opaque, so freezing is shallow by definition.
- Module export plumbing.
- BuiltIns.Assign: states what a completed assignment promises, not exactly when an
  assignment into an arbitrary target fails. For the fresh target the helpers use,
  `Descriptors.CopyOfEnumerable` proves that it never fails.
- Strict and sloppy mode. `BuiltIns.Set` and `BuiltIns.Delete` answer `None` for a refusal;
  whether the caller's code then throws depends on its mode, which is outside the model.

Three readings of the code that the model makes explicit:

- Objects are ordered, not unordered. The order of `getKeysByDescriptor` and of the copies
  is the creation order of the keys.
- A key redefined by `assignLockedValues` keeps its other attributes, as ValidateAndApply
  does. Every property of the copy made by `Object.assign` is configurable, so the call at
  line 37 never meets a non-configurable property and never throws.
- A key that `object` has but does not enumerate is not copied by `Object.assign`, so
  `assignLockedValues` gives it the value `null`, like a missing key.

=== FILE: BuiltIns.dfy ===
/** The ECMA-262 built-ins the helpers of src/index.js call, on ordinary objects that hold
    only data properties and have no prototype to consult. `None` stands for the abstract
    operation answering false; the built-in wrapping it (Object.defineProperty,
    Object.freeze, Object.assign writing with `throw` true) then throws a TypeError.
    Section numbers are those of the 2024 edition of ECMA-262. */
module BuiltIns {
  import opened Wrappers
  import opened Sequences
  import opened Objects

  /** Object.prototype.hasOwnProperty (section 20.1.3.2): whether `key` is among the own
      keys OrdinaryOwnPropertyKeys lists. */
  function HasOwnProperty(o: JsObject, key: string): (r: bool)
    ensures r <==> key in o.keys
  {
    key in o.props
  }

  /** Object.isExtensible (section 20.1.2.16) on an ordinary object: whether it accepts a
      definition of every key it does not have. */
  function IsExtensible(o: JsObject): (r: bool)
    ensures forall key, d | key !in o.props :: DefineProperty(o, key, d).Some? <==> r
  {
    o.extensible
  }

  /** Step 5 of ValidateAndApplyPropertyDescriptor (section 10.1.6.3): whether `d` may be
      applied to the existing data property `current`. A configurable property accepts any
      descriptor; a non-configurable one refuses becoming configurable and a change of
      enumerability, and, when also non-writable, becoming writable and a different value. */
  predicate Compatible(current: Property, d: PropertyDescriptor) {
    || current.configurable
    || (&& d.configurable != Some(true)
        && (d.enumerable.Some? ==> d.enumerable.value == current.enumerable)
        && (|| current.writable
            || (d.writable != Some(true) && (d.value.Some? ==> d.value.value == current.value))))
  }

  /** Object.defineProperty(o, key, d) (section 20.1.2.4), through OrdinaryDefineOwnProperty
      and ValidateAndApplyPropertyDescriptor (sections 10.1.6.1 and 10.1.6.3). `None` is the
      TypeError DefinePropertyOrThrow raises when the definition is refused. */
  function DefineProperty(o: JsObject, key: string, d: PropertyDescriptor): (r: Option<JsObject>)
    // A new key is refused exactly when the object is not extensible; a configurable
    // property never refuses.
    ensures key !in o.props ==> (r.Some? <==> o.extensible)
    ensures key in o.props && o.props[key].configurable ==> r.Some?
    // After success the property agrees with every field given; the fields not given keep
    // their former values, or take the defaults undefined/false on a new key.
    ensures r.Some? ==> key in r.value.props && Satisfies(r.value.props[key], d)
    ensures r.Some? && key in o.props ==> KeepsAbsent(r.value.props[key], o.props[key], d)
    ensures r.Some? && key !in o.props ==>
              KeepsAbsent(r.value.props[key], Property(Undefined, false, false, false), d)
    // A new key goes after all existing ones; nothing else changes.
    ensures r.Some? ==> r.value.keys == if key in o.props then o.keys else o.keys + [key]
    ensures r.Some? ==> forall k | k in o.props && k != key ::
              k in r.value.props && r.value.props[k] == o.props[k]
    ensures r.Some? ==> r.value.extensible == o.extensible
  {
    if key !in o.props then
      if !o.extensible then None
      else
        assert key !in o.keys;
        Some(Obj(o.keys + [key], o.props[key := Create(d)], o.extensible))
    else if IsEmptyDescriptor(d) then Some(o)
    else if !Compatible(o.props[key], d) then None
    else Some(o.(props := o.props[key := Update(o.props[key], d)]))
  }

  /** `o[key] = v`: OrdinarySet and OrdinarySetWithOwnDescriptor (sections 10.1.9.1 and
      10.1.9.2) with `o` as receiver and no prototype. `None` is [[Set]] answering false. */
  function Set(o: JsObject, key: string, v: Value): (r: Option<JsObject>)
    // A write is refused exactly on a non-writable own property, or on a missing key of a
    // non-extensible object.
    ensures r.Some? <==> if key in o.props then o.props[key].writable else o.extensible
    // It replaces only the value of an existing property, and creates a missing one with
    // every attribute true, after all existing keys.
    ensures r.Some? && key in o.props ==>
              key in r.value.props && r.value.props[key] == o.props[key].(value := v)
    ensures r.Some? && key !in o.props ==>
              key in r.value.props && r.value.props[key] == Property(v, true, true, true)
    ensures r.Some? ==> r.value.keys == if key in o.props then o.keys else o.keys + [key]
    ensures r.Some? ==> r.value.props.Keys == o.props.Keys + {key}
    ensures r.Some? ==> forall k | k in o.props && k != key ::
              k in r.value.props && r.value.props[k] == o.props[k]
    ensures r.Some? ==> r.value.extensible == o.extensible
  {
    if key in o.props then
      if !o.props[key].writable then None
      else DefineProperty(o, key, PropertyDescriptor(Some(v), None, None, None))
    else DefineProperty(o, key, PropertyDescriptor(Some(v), Some(true), Some(true), Some(true)))
  }

  /** `delete o[key]`: OrdinaryDelete (section 10.1.10.1). `None` is the refusal to remove a
      non-configurable property. */
  function Delete(o: JsObject, key: string): (r: Option<JsObject>)
    ensures r.Some? <==> key !in o.props || o.props[key].configurable
    ensures r.Some? ==> key !in r.value.props
    ensures r.Some? ==> IsSubsequence(r.value.keys, o.keys)
    ensures r.Some? ==> forall k | k in o.props && k != key ::
              k in r.value.props && r.value.props[k] == o.props[k]
    ensures r.Some? ==> r.value.extensible == o.extensible
  {
    if key !in o.props then
      SubsequenceReflexive(o.keys);
      Some(o)
    else if !o.props[key].configurable then None
    else
      RemovedWellFormed(o, key);
      Some(Obj(Without(o.keys, key), o.props - {key}, o.extensible))
  }

  /** Removing a key from both the key list and the map keeps an object well formed. */
  lemma RemovedWellFormed(o: JsObject, key: string)
    ensures WellFormed(Obj(Without(o.keys, key), o.props - {key}, o.extensible))
  {
    var keys, props := Without(o.keys, key), o.props - {key};
    forall i | 0 <= i < |keys| ensures keys[i] in props {
      assert keys[i] in keys;
      var j :| 0 <= j < |o.keys| && o.keys[j] == keys[i];
    }
  }

  /** The loop of Object.assign (section 20.1.2.1) over the own keys of `source` from
      position `i` on: each enumerable own property is written to `target` with Set. */
  function AssignFrom(target: JsObject, source: JsObject, i: nat): (r: Option<JsObject>)
    requires i <= |source.keys|
    // The loop keeps the target's extensibility, and its keys first, in their order.
    ensures r.Some? ==> r.value.extensible == target.extensible && target.keys <= r.value.keys
    decreases |source.keys| - i
  {
    if i == |source.keys| then Some(target)
    else
      var key := source.keys[i];
      var p := source.props[key];
      if !p.enumerable then AssignFrom(target, source, i + 1)
      else
        match Set(target, key, p.value)
        case None => None
        case Some(t) => AssignFrom(t, source, i + 1)
  }

  /** The loop of Object.assign leaves alone every target property that no remaining
      enumerable key of the source names. */
  lemma {:induction false} AssignFromKeepsOthers(target: JsObject, source: JsObject, i: nat, k: string)
    requires i <= |source.keys|
    requires k in target.props
    requires k in source.keys[i..] ==> !source.props[k].enumerable
    ensures var r := AssignFrom(target, source, i);
      r.Some? ==> k in r.value.props && r.value.props[k] == target.props[k]
    decreases |source.keys| - i
  {
    if i < |source.keys| {
      var key := source.keys[i];
      var p := source.props[key];
      assert source.keys[i..] == [key] + source.keys[i + 1..];
      if !p.enumerable {
        AssignFromKeepsOthers(target, source, i + 1, k);
      } else if Set(target, key, p.value).Some? {
        var t := Set(target, key, p.value).value;
        AssignFromKeepsOthers(t, source, i + 1, k);
      }
    }
  }

  /** The loop of Object.assign adds no key but the remaining enumerable keys of the
      source, and each key it adds holds the source's value with every attribute true. */
  lemma {:induction false} AssignFromOnlyAdds(target: JsObject, source: JsObject, i: nat)
    requires i <= |source.keys|
    ensures var r := AssignFrom(target, source, i);
      r.Some? ==> forall k | k in r.value.props && k !in target.props ::
        && k in source.keys[i..] && source.props[k].enumerable
        && r.value.props[k] == Property(source.props[k].value, true, true, true)
    decreases |source.keys| - i
  {
    if i < |source.keys| {
      var key := source.keys[i];
      var p := source.props[key];
      assert source.keys[i..] == [key] + source.keys[i + 1..];
      if !p.enumerable {
        AssignFromOnlyAdds(target, source, i + 1);
      } else if Set(target, key, p.value).Some? {
        var t := Set(target, key, p.value).value;
        AssignFromOnlyAdds(t, source, i + 1);
        if key !in target.props {
          assert key !in source.keys[i + 1..];
          AssignFromKeepsOthers(t, source, i + 1, key);
        }
      }
    }
  }

  /** The keys Object.assign adds to a target whose keys are `present`: the enumerable
      own keys of the source from position `i` on that the target lacks, in source order. */
  function AddedKeys(source: JsObject, i: nat, present: set<string>): seq<string>
    requires i <= |source.keys|
    decreases |source.keys| - i
  {
    if i == |source.keys| then []
    else
      var key := source.keys[i];
      var rest := AddedKeys(source, i + 1, present);
      if source.props[key].enumerable && key !in present then [key] + rest else rest
  }

  /** AddedKeys holds, once each, exactly the enumerable keys of the source from position
      `i` on that are not in `present`. */
  lemma {:induction false} AddedKeysMembers(source: JsObject, i: nat, present: set<string>)
    requires i <= |source.keys|
    ensures var r := AddedKeys(source, i, present);
      && (forall k :: k in r <==>
            k in source.keys[i..] && k in source.props && source.props[k].enumerable && k !in present)
      && Distinct(r)
    decreases |source.keys| - i
  {
    if i == |source.keys| {
      assert source.keys[i..] == [];
    } else {
      var key := source.keys[i];
      assert source.keys[i..] == [key] + source.keys[i + 1..];
      AddedKeysMembers(source, i + 1, present);
      var rest := AddedKeys(source, i + 1, present);
      if source.props[key].enumerable && key !in present {
        assert key !in source.keys[i + 1..];
        assert AddedKeys(source, i, present) == [key] + rest;
      } else {
        assert AddedKeys(source, i, present) == rest;
      }
    }
  }

  /** Which keys the target already has matters to AddedKeys only for the keys it visits. */
  lemma {:induction false} AddedKeysIgnores(source: JsObject, i: nat, present: set<string>, x: string)
    requires i <= |source.keys|
    requires x !in source.keys[i..]
    ensures AddedKeys(source, i, present + {x}) == AddedKeys(source, i, present)
    decreases |source.keys| - i
  {
    if i < |source.keys| {
      assert source.keys[i..] == [source.keys[i]] + source.keys[i + 1..];
      AddedKeysIgnores(source, i + 1, present, x);
    }
  }

  /** An enumerable key at position `i` opens AddedKeys exactly when the target lacks it,
      and having it afterwards changes nothing further on. */
  lemma AddedKeysStep(source: JsObject, i: nat, present: set<string>)
    requires i < |source.keys|
    requires source.props[source.keys[i]].enumerable
    ensures var key := source.keys[i];
      AddedKeys(source, i, present) ==
      (if key in present then [] else [key]) + AddedKeys(source, i + 1, present + {key})
  {
    var key := source.keys[i];
    assert key !in source.keys[i + 1..] by {
      assert source.keys[i..] == [key] + source.keys[i + 1..];
    }
    AddedKeysIgnores(source, i + 1, present, key);
  }

  /** After Object.assign writes the enumerable key at position `i` into `target`, giving
      `t`, the keys of `t` followed by what is still to be added are those of `target`
      followed by all it will get. */
  lemma AddedKeysAfterWrite(target: JsObject, t: JsObject, source: JsObject, i: nat)
    requires i < |source.keys|
    requires source.props[source.keys[i]].enumerable
    requires t.keys == if source.keys[i] in target.props then target.keys else target.keys + [source.keys[i]]
    requires t.props.Keys == target.props.Keys + {source.keys[i]}
    ensures t.keys + AddedKeys(source, i + 1, t.props.Keys) ==
            target.keys + AddedKeys(source, i, target.props.Keys)
  {
    var key := source.keys[i];
    var rest := AddedKeys(source, i + 1, target.props.Keys + {key});
    AddedKeysStep(source, i, target.props.Keys);
    if key in target.props {
      assert AddedKeys(source, i, target.props.Keys) == rest;
    } else {
      assert AddedKeys(source, i, target.props.Keys) == [key] + rest;
      assert (target.keys + [key]) + rest == target.keys + ([key] + rest);
    }
  }

  /** The loop of Object.assign, when it completes, leaves the target's keys first and
      then the keys it added, in the source's order. */
  lemma {:induction false} AssignFromAddsInOrder(target: JsObject, source: JsObject, i: nat)
    requires i <= |source.keys|
    ensures var r := AssignFrom(target, source, i);
      r.Some? ==> r.value.keys == target.keys + AddedKeys(source, i, target.props.Keys)
    decreases |source.keys| - i
  {
    if i == |source.keys| {
      assert target.keys + [] == target.keys;
    } else {
      var key := source.keys[i];
      var p := source.props[key];
      if !p.enumerable {
        AssignFromAddsInOrder(target, source, i + 1);
        assert AddedKeys(source, i, target.props.Keys) == AddedKeys(source, i + 1, target.props.Keys);
      } else if Set(target, key, p.value).Some? {
        var t := Set(target, key, p.value).value;
        assert AssignFrom(target, source, i) == AssignFrom(t, source, i + 1);
        AssignFromAddsInOrder(t, source, i + 1);
        AddedKeysAfterWrite(target, t, source, i);
      }
    }
  }

  /** The key at position `i`, once written, is left alone by the rest of the loop. */
  lemma AssignFromKeepsWritten(t: JsObject, source: JsObject, i: nat)
    requires i < |source.keys|
    requires source.keys[i] in t.props
    ensures var r := AssignFrom(t, source, i + 1);
      r.Some? ==> source.keys[i] in r.value.props && r.value.props[source.keys[i]] == t.props[source.keys[i]]
  {
    var key := source.keys[i];
    assert key !in source.keys[i + 1..] by {
      assert source.keys[i..] == [key] + source.keys[i + 1..];
    }
    AssignFromKeepsOthers(t, source, i + 1, key);
  }

  /** The loop of Object.assign, when it completes, has copied the value of every
      enumerable own property of the source from position `i` on. */
  lemma {:induction false} AssignFromCopies(target: JsObject, source: JsObject, i: nat, j: nat)
    requires i <= j < |source.keys|
    requires source.props[source.keys[j]].enumerable
    ensures var r := AssignFrom(target, source, i);
      r.Some? ==> && source.keys[j] in r.value.props
                  && r.value.props[source.keys[j]].value == source.props[source.keys[j]].value
    decreases |source.keys| - i
  {
    var key := source.keys[i];
    var p := source.props[key];
    if !p.enumerable {
      AssignFromCopies(target, source, i + 1, j);
    } else if Set(target, key, p.value).Some? {
      var t := Set(target, key, p.value).value;
      assert AssignFrom(target, source, i) == AssignFrom(t, source, i + 1);
      if j == i {
        AssignFromKeepsWritten(t, source, i);
      } else {
        AssignFromCopies(t, source, i + 1, j);
      }
    }
  }

  /** The loop of Object.assign, when it completes, has changed only the value of every
      target property that a remaining enumerable key of the source names. */
  lemma {:induction false} AssignFromOverwrites(target: JsObject, source: JsObject, i: nat, j: nat)
    requires i <= j < |source.keys|
    requires source.props[source.keys[j]].enumerable
    requires source.keys[j] in target.props
    ensures var r := AssignFrom(target, source, i); var k := source.keys[j];
      r.Some? ==> k in r.value.props && r.value.props[k] == target.props[k].(value := source.props[k].value)
    decreases |source.keys| - i
  {
    var key := source.keys[i];
    var p := source.props[key];
    if !p.enumerable {
      AssignFromOverwrites(target, source, i + 1, j);
    } else if Set(target, key, p.value).Some? {
      var t := Set(target, key, p.value).value;
      assert AssignFrom(target, source, i) == AssignFrom(t, source, i + 1);
      if j == i {
        AssignFromKeepsWritten(t, source, i);
      } else {
        assert key != source.keys[j];
        AssignFromOverwrites(t, source, i + 1, j);
      }
    }
  }

  /** Object.assign(target, source) (section 20.1.2.1) with a single source object. */
  function Assign(target: JsObject, source: JsObject): (r: Option<JsObject>)
    // The target's keys stay first and in order; every own enumerable property of the
    // source is copied by value; the target's other properties are untouched.
    ensures r.Some? ==> r.value.extensible == target.extensible
    ensures r.Some? ==> target.keys <= r.value.keys
    ensures r.Some? ==> forall k | k in target.props && (k in source.props ==> !source.props[k].enumerable) ::
              k in r.value.props && r.value.props[k] == target.props[k]
    ensures r.Some? ==> forall k | k in source.props && source.props[k].enumerable ::
              k in r.value.props && r.value.props[k].value == source.props[k].value
    ensures r.Some? ==> forall k | k in r.value.props && k !in target.props ::
              && k in source.props && source.props[k].enumerable
              && r.value.props[k] == Property(source.props[k].value, true, true, true)
  {
    assert source.keys[0..] == source.keys;
    AssignFromOnlyAdds(target, source, 0);
    forall k | k in target.props && (k in source.props ==> !source.props[k].enumerable)
      ensures var r := AssignFrom(target, source, 0);
        r.Some? ==> k in r.value.props && r.value.props[k] == target.props[k]
    {
      AssignFromKeepsOthers(target, source, 0, k);
    }
    forall k | k in source.props && source.props[k].enumerable
      ensures var r := AssignFrom(target, source, 0);
        r.Some? ==> k in r.value.props && r.value.props[k].value == source.props[k].value
    {
      var j :| 0 <= j < |source.keys| && source.keys[j] == k;
      AssignFromCopies(target, source, 0, j);
    }
    AssignFrom(target, source, 0)
  }

  /** Object.assign, when it completes, leaves the target's keys first and then the keys
      it added: the enumerable own keys of the source that the target lacked, in the
      source's order. */
  lemma AssignAddsInOrder(target: JsObject, source: JsObject)
    ensures var r := Assign(target, source);
      r.Some? ==> r.value.keys == target.keys + AddedKeys(source, 0, target.props.Keys)
  {
    AssignFromAddsInOrder(target, source, 0);
  }

  /** Object.assign, when it completes, replaces only the value of a target property that
      an own enumerable key of the source names: its attributes stay as they were. */
  lemma AssignOverwrites(target: JsObject, source: JsObject)
    ensures var r := Assign(target, source);
      r.Some? ==> forall k | k in target.props && k in source.props && source.props[k].enumerable ::
        k in r.value.props && r.value.props[k] == target.props[k].(value := source.props[k].value)
  {
    forall k | k in target.props && k in source.props && source.props[k].enumerable
      ensures var r := AssignFrom(target, source, 0);
        r.Some? ==> k in r.value.props && r.value.props[k] == target.props[k].(value := source.props[k].value)
    {
      var j :| 0 <= j < |source.keys| && source.keys[j] == k;
      AssignFromOverwrites(target, source, 0, j);
    }
  }

  /** The two integrity levels of SetIntegrityLevel and TestIntegrityLevel. */
  datatype IntegrityLevel = Sealed | Frozen

  /** A property is at `level` when it is non-configurable and, for frozen, non-writable. */
  predicate AtLevel(p: Property, level: IntegrityLevel) {
    !p.configurable && (level == Frozen ==> !p.writable)
  }

  /** `p` after SetIntegrityLevel has locked it: non-configurable, and non-writable when
      frozen; value and enumerability as before. */
  function Locked(p: Property, level: IntegrityLevel): (q: Property)
    ensures AtLevel(q, level)
    ensures q.value == p.value && q.enumerable == p.enumerable
    ensures level == Sealed ==> q.writable == p.writable
  {
    p.(configurable := false, writable := p.writable && level == Sealed)
  }

  /** Object.preventExtensions (section 20.1.2.20) on an ordinary object
      (OrdinaryPreventExtensions, section 10.1.4.1), which always succeeds. */
  function PreventExtensions(o: JsObject): (r: JsObject)
    ensures !IsExtensible(r)
    ensures r.keys == o.keys && r.props == o.props
  {
    o.(extensible := false)
  }

  /** The descriptor SetIntegrityLevel defines on each own data property. */
  function LockDescriptor(level: IntegrityLevel): PropertyDescriptor {
    match level
    case Sealed => PropertyDescriptor(None, None, None, Some(false))
    case Frozen => PropertyDescriptor(None, Some(false), None, Some(false))
  }

  /** The loop of SetIntegrityLevel over the own keys `keys` from position `i` on: each
      DefinePropertyOrThrow call succeeds, since it asks for nothing a non-configurable
      property refuses. */
  function LockFrom(o: JsObject, keys: seq<string>, level: IntegrityLevel, i: nat): (r: Option<JsObject>)
    requires i <= |keys|
    requires forall j | i <= j < |keys| :: keys[j] in o.props
    ensures r.Some?
    ensures r.value.keys == o.keys && r.value.extensible == o.extensible
    ensures r.value.props.Keys == o.props.Keys
    ensures forall k | k in o.props ::
              r.value.props[k] == if k in keys[i..] then Locked(o.props[k], level) else o.props[k]
    decreases |keys| - i
  {
    if i == |keys| then Some(o)
    else
      var key := keys[i];
      var next := DefineProperty(o, key, LockDescriptor(level));
      assert next.Some? && next.value.props[key] == Locked(o.props[key], level);
      LockFrom(next.value, keys, level, i + 1)
  }

  /** SetIntegrityLevel(o, level) (section 7.3.15) on an ordinary object. It cannot fail,
      and it leaves `o` at `level` by the measure of TestIntegrityLevel. */
  function SetIntegrityLevel(o: JsObject, level: IntegrityLevel): (r: Option<JsObject>)
    ensures r.Some? && TestIntegrityLevel(r.value, level)
    ensures r.value.keys == o.keys
    ensures forall k | k in o.props :: k in r.value.props && r.value.props[k] == Locked(o.props[k], level)
  {
    var p := PreventExtensions(o);
    assert o.keys[0..] == o.keys;
    LockFrom(p, o.keys, level, 0)
  }

  /** Object.freeze (section 20.1.2.6) on an ordinary object: it never throws, and leaves
      every property non-writable and non-configurable and the object non-extensible. */
  function Freeze(o: JsObject): (r: Option<JsObject>)
    ensures r.Some? && IsFrozen(r.value) && !IsExtensible(r.value)
    ensures r.value.keys == o.keys
    ensures forall k | k in o.props :: k in r.value.props && r.value.props[k] ==
              Property(o.props[k].value, false, o.props[k].enumerable, false)
  {
    SetIntegrityLevel(o, Frozen)
  }

  /** Object.seal (section 20.1.2.22) on an ordinary object: it never throws, and leaves
      every property non-configurable, with writability unchanged, and the object
      non-extensible. */
  function Seal(o: JsObject): (r: Option<JsObject>)
    ensures r.Some? && IsSealed(r.value) && !IsExtensible(r.value)
    ensures r.value.keys == o.keys
    ensures forall k | k in o.props :: k in r.value.props && r.value.props[k] == o.props[k].(configurable := false)
  {
    SetIntegrityLevel(o, Sealed)
  }

  /** The loop of TestIntegrityLevel over `keys` from position `i` on. */
  function AllAtLevel(o: JsObject, keys: seq<string>, level: IntegrityLevel, i: nat): (r: bool)
    requires i <= |keys|
    requires forall j | i <= j < |keys| :: keys[j] in o.props
    ensures r <==> forall j | i <= j < |keys| :: AtLevel(o.props[keys[j]], level)
    decreases |keys| - i
  {
    if i == |keys| then true
    else
      var p := o.props[keys[i]];
      if p.configurable then false
      else if level == Frozen && p.writable then false
      else AllAtLevel(o, keys, level, i + 1)
  }

  /** TestIntegrityLevel(o, level) (section 7.3.16): an extensible object is at no level;
      otherwise every own property must be at `level`. */
  function TestIntegrityLevel(o: JsObject, level: IntegrityLevel): (r: bool)
    ensures r <==> !o.extensible && forall k | k in o.props :: AtLevel(o.props[k], level)
  {
    if IsExtensible(o) then false else AllAtLevel(o, o.keys, level, 0)
  }

  /** Object.isSealed (section 20.1.2.18): the object takes no new key and refuses to
      delete every key it has. */
  function IsSealed(o: JsObject): (r: bool)
    ensures r <==> !IsExtensible(o) && forall key | key in o.props :: Delete(o, key).None?
  {
    TestIntegrityLevel(o, Sealed)
  }

  /** Object.isFrozen (section 20.1.2.17): the object is sealed and refuses every write,
      to a key it has or to a new one. */
  function IsFrozen(o: JsObject): (r: bool)
    ensures r ==> IsSealed(o)
    ensures r ==> forall key, v :: Set(o, key, v).None?
    ensures IsSealed(o) && (forall key | key in o.props :: Set(o, key, Undefined).None?) ==> r
  {
    TestIntegrityLevel(o, Frozen)
  }

  /** A frozen object refuses every change. A definition succeeds exactly when each field it
      gives already holds, and then leaves the object as it was; no write succeeds; a
      deletion succeeds only for a key the object does not have, and removes nothing. */
  lemma FrozenRefusesChanges(o: JsObject, key: string, d: PropertyDescriptor, v: Value)
    requires IsFrozen(o)
    ensures DefineProperty(o, key, d).Some? <==> key in o.props && Satisfies(o.props[key], d)
    ensures DefineProperty(o, key, d).Some? ==> DefineProperty(o, key, d).value == o
    ensures Set(o, key, v).None?
    ensures Delete(o, key).Some? <==> key !in o.props
    ensures Delete(o, key).Some? ==> Delete(o, key).value == o
  {
  }

  /** Repeating a definition that succeeded succeeds again and changes nothing more. */
  lemma DefinePropertyIdempotent(o: JsObject, key: string, d: PropertyDescriptor)
    requires DefineProperty(o, key, d).Some?
    ensures var o' := DefineProperty(o, key, d).value;
      DefineProperty(o', key, d) == Some(o')
  {
    var o' := DefineProperty(o, key, d).value;
    var p := o'.props[key];
    assert Update(p, d) == p;
    assert o'.props[key := p] == o'.props;
  }

  /** A non-configurable property stays non-configurable and keeps its enumerability
      through any definition that succeeds; when it is also non-writable, nothing about it
      changes (step 5 of ValidateAndApplyPropertyDescriptor). */
  lemma NonConfigurableStays(o: JsObject, key: string, d: PropertyDescriptor)
    requires key in o.props && !o.props[key].configurable
    requires DefineProperty(o, key, d).Some?
    ensures var p := DefineProperty(o, key, d).value.props[key];
      && !p.configurable
      && p.enumerable == o.props[key].enumerable
      && (!o.props[key].writable ==> p == o.props[key])
  {
  }

  /** A definition asking only for what an existing property already has changes nothing. */
  lemma SatisfiedIsNoop(o: JsObject, key: string, d: PropertyDescriptor)
    requires key in o.props && Satisfies(o.props[key], d)
    ensures DefineProperty(o, key, d) == Some(o)
  {
    assert Update(o.props[key], d) == o.props[key];
    assert o.props[key := o.props[key]] == o.props;
  }

  /** On a sealed object no existing property can be made configurable again, while a
      writable one still accepts new values. */
  lemma SealedKeepsWrites(o: JsObject, key: string, v: Value)
    requires IsSealed(o) && key in o.props
    ensures DefineProperty(o, key, PropertyDescriptor(None, None, None, Some(true))).None?
    ensures Set(o, key, v).Some? <==> o.props[key].writable
  {
  }

  /** Deleting a key that a write has just added gives back the object as it was. */
  lemma SetThenDeleteRestores(o: JsObject, key: string, v: Value)
    requires key !in o.props && o.extensible
    ensures Set(o, key, v).Some?
    ensures Delete(Set(o, key, v).value, key) == Some(o)
  {
    var p := Create(PropertyDescriptor(Some(v), Some(true), Some(true), Some(true)));
    assert key !in o.keys;
    assert Set(o, key, v) == Some(Obj(o.keys + [key], o.props[key := p], o.extensible));
    WithoutAbsent(o.keys, key);
    RemoveAdded(o.props, key, p);
  }

  /** Removing a key just added to a map that lacked it gives the map back. */
  lemma RemoveAdded(m: map<string, Property>, key: string, p: Property)
    requires key !in m
    ensures m[key := p] - {key} == m
  {
  }

  /** Freezing an object that freezing produced changes nothing. */
  lemma FreezeIdempotent(o: JsObject)
    ensures var f := Freeze(o).value;
      Freeze(f) == Some(f)
  {
    var f := Freeze(o).value;
    var g := Freeze(f).value;
    assert g.keys == f.keys && !g.extensible && !f.extensible;
    assert g.props.Keys == f.props.Keys;
    forall k | k in f.props
      ensures g.props[k] == f.props[k]
    {
    }
    assert g.props == f.props;
    assert g == f;
  }
}

=== FILE: Descriptors.dfy ===
/** The four helpers exported by src/index.js, built on the models of the built-ins they
    call, with the properties each one promises. */
module Descriptors {
  import opened Wrappers
  import opened Sequences
  import opened Objects
  import opened BuiltIns

  /** Object.entries(Object.getOwnPropertyDescriptors(o)) (sections 20.1.2.5 and 20.1.2.9 of
      ECMA-262): the intermediate object gets one enumerable data property per own key of
      `o`, in key order, holding that key's complete descriptor, and its entries list them
      in that order. */
  function OwnPropertyDescriptors(o: JsObject): (es: seq<(string, Property)>)
    // One entry per own key, in key order, each holding the property of its key.
    ensures EntryKeys(es) == o.keys
    ensures forall i | 0 <= i < |es| :: es[i].0 in o.props && es[i].1 == o.props[es[i].0]
  {
    seq(|o.keys|, i requires 0 <= i < |o.keys| => (o.keys[i], o.props[o.keys[i]]))
  }

  /** The keys of a list of entries. */
  function EntryKeys(es: seq<(string, Property)>): (ks: seq<string>)
    ensures |ks| == |es|
    ensures forall i | 0 <= i < |es| :: ks[i] == es[i].0
  {
    seq(|es|, i requires 0 <= i < |es| => es[i].0)
  }

  /** `.filter(([, value]) => value[d]).map(([key]) => key)` over descriptor entries: the keys
      of the entries whose attribute `d` is true, in entry order. */
  function SelectKeys(es: seq<(string, Property)>, d: DescriptorName): (r: seq<string>)
    ensures forall i | 0 <= i < |es| && Flag(es[i].1, d) :: es[i].0 in r
    ensures forall k | k in r :: exists i | 0 <= i < |es| :: es[i].0 == k && Flag(es[i].1, d)
    ensures IsSubsequence(r, EntryKeys(es))
    decreases |es|
  {
    if |es| == 0 then []
    else
      var init, last := es[..|es| - 1], es[|es| - 1];
      var rest := SelectKeys(init, d);
      assert EntryKeys(es) == EntryKeys(init) + [last.0];
      SubsequenceExtend(rest, EntryKeys(init), last.0);
      if Flag(last.1, d) then rest + [last.0] else rest
  }

  /** getKeysByDescriptor(object, descriptor): the own keys of `o` whose attribute `d` is
      true, in own-key order, each once; none for an object without own properties. */
  function GetKeysByDescriptor(o: JsObject, d: DescriptorName): (r: seq<string>)
    ensures forall k :: k in r <==> k in o.props && Flag(o.props[k], d)
    ensures IsSubsequence(r, o.keys)
    ensures Distinct(r)
    ensures |o.props| == 0 ==> r == []
  {
    var es := OwnPropertyDescriptors(o);
    SubsequenceDistinct(SelectKeys(es, d), o.keys);
    SelectKeys(es, d)
  }

  /** No other key list answers getKeysByDescriptor: one that lists, in own-key order,
      exactly the own keys whose attribute `d` is true is its result. */
  lemma GetKeysByDescriptorIsExact(o: JsObject, d: DescriptorName, s: seq<string>)
    requires IsSubsequence(s, o.keys)
    requires forall k :: k in s <==> k in o.props && Flag(o.props[k], d)
    ensures s == GetKeysByDescriptor(o, d)
  {
    SubsequenceUnique(s, GetKeysByDescriptor(o, d), o.keys);
  }

  /** isObjectAnyFrozen(object): whether preventExtensions, seal or freeze has been applied.
      Sealed and frozen objects are never extensible, so the answer is just "not
      extensible". */
  function IsObjectAnyFrozen(o: JsObject): (r: bool)
    ensures r <==> !IsExtensible(o)
  {
    !IsExtensible(o) || IsSealed(o) || IsFrozen(o)
  }

  /** Each of the three ways of locking an object makes isObjectAnyFrozen true, and an
      object nobody locked answers false. */
  lemma LockedObjectsAreAnyFrozen(o: JsObject)
    ensures IsObjectAnyFrozen(PreventExtensions(o))
    ensures IsObjectAnyFrozen(Seal(o).value)
    ensures IsObjectAnyFrozen(Freeze(o).value)
    ensures IsExtensible(o) ==> !IsObjectAnyFrozen(o)
  {
  }

  /** Selecting from one more entry adds at most that entry's key, at the end. */
  lemma SelectKeysStep(es: seq<(string, Property)>, i: nat, d: DescriptorName)
    requires i < |es|
    ensures SelectKeys(es[..i + 1], d) ==
              SelectKeys(es[..i], d) + (if Flag(es[i].1, d) then [es[i].0] else [])
  {
    assert es[..i + 1][..i] == es[..i];
  }

  /** The key at position `i` is not among the keys selected before it. */
  lemma SelectedBeforeExcludes(o: JsObject, i: nat, d: DescriptorName)
    requires i < |o.keys|
    ensures o.keys[i] !in SelectKeys(OwnPropertyDescriptors(o)[..i], d)
  {
  }

  /** One round of the loop of `Object.assign({}, o)` on an enumerable key: the key is not
      yet in the copy, so Set appends it with every attribute true. */
  lemma CopyStep(o: JsObject, to: JsObject, i: nat) returns (t: JsObject)
    requires i < |o.keys| && o.props[o.keys[i]].enumerable
    requires to.extensible
    requires to.keys == SelectKeys(OwnPropertyDescriptors(o)[..i], Enumerable)
    requires forall k | k in to.props :: k in o.props && to.props[k] == Property(o.props[k].value, true, true, true)
    ensures Set(to, o.keys[i], o.props[o.keys[i]].value) == Some(t)
    ensures t.extensible
    ensures t.keys == SelectKeys(OwnPropertyDescriptors(o)[..i + 1], Enumerable)
    ensures forall k | k in t.props :: k in o.props && t.props[k] == Property(o.props[k].value, true, true, true)
  {
    var key := o.keys[i];
    SelectedBeforeExcludes(o, i, Enumerable);
    SelectKeysStep(OwnPropertyDescriptors(o), i, Enumerable);
    assert key !in to.props;
    t := Set(to, key, o.props[key].value).value;
    forall k | k in t.props
      ensures k in o.props && t.props[k] == Property(o.props[k].value, true, true, true)
    {
      if k != key {
        assert k in to.keys + [key];
      }
    }
  }

  /** The loop of `Object.assign({}, o)` from position `i` on, started from the copy of the
      keys before `i`, completes with the copy of all of them. */
  lemma {:induction false} CopyFrom(o: JsObject, to: JsObject, i: nat)
    requires i <= |o.keys|
    requires to.extensible
    requires to.keys == SelectKeys(OwnPropertyDescriptors(o)[..i], Enumerable)
    requires forall k | k in to.props :: k in o.props && to.props[k] == Property(o.props[k].value, true, true, true)
    ensures AssignFrom(to, o, i).Some?
    ensures var c := AssignFrom(to, o, i).value;
      && c.extensible
      && c.keys == SelectKeys(OwnPropertyDescriptors(o), Enumerable)
      && forall k | k in c.props :: k in o.props && c.props[k] == Property(o.props[k].value, true, true, true)
    decreases |o.keys| - i
  {
    var es := OwnPropertyDescriptors(o);
    if i == |o.keys| {
      assert es[..i] == es;
    } else {
      var key := o.keys[i];
      var p := o.props[key];
      SelectKeysStep(es, i, Enumerable);
      if !p.enumerable {
        CopyFrom(o, to, i + 1);
      } else {
        var t := CopyStep(o, to, i);
        CopyFrom(o, t, i + 1);
      }
    }
  }

  /** The shallow copy `Object.assign({}, o)` (src/index.js:35 and 57) cannot fail; it is an
      extensible object holding the own enumerable keys of `o`, in order, each with its
      value and every attribute true. */
  lemma CopyOfEnumerable(o: JsObject)
    ensures Assign(EmptyObject(), o).Some?
    ensures var c := Assign(EmptyObject(), o).value;
      && IsExtensible(c)
      && c.keys == GetKeysByDescriptor(o, Enumerable)
      && forall k | k in c.props :: k in o.props && c.props[k] == Property(o.props[k].value, true, true, true)
  {
    assert OwnPropertyDescriptors(o)[..0] == [];
    CopyFrom(o, EmptyObject(), 0);
  }

  /** assignLockedValues(object, propertyName): a copy of `o` in which `name` can no longer
      be written. */
  function AssignLockedValues(o: JsObject, name: string): (r: Option<JsObject>)
    // Neither defineProperty call can throw.
    ensures r.Some?
    // `name` keeps its value when it is an own enumerable key of `o` and is null
    // otherwise; either way it is non-writable, enumerable and configurable.
    ensures name in r.value.props
    ensures r.value.props[name] ==
              Property(if name in o.props && o.props[name].enumerable then o.props[name].value else Null,
                       false, true, true)
    // Every other key is an own enumerable key of `o`, with its value and every attribute
    // true; the keys keep the order of `o`, and a new `name` comes last.
    ensures forall k | k in r.value.props && k != name ::
              && k in o.props && o.props[k].enumerable
              && r.value.props[k] == Property(o.props[k].value, true, true, true)
    ensures r.value.keys ==
              if name in o.props && o.props[name].enumerable then GetKeysByDescriptor(o, Enumerable)
              else GetKeysByDescriptor(o, Enumerable) + [name]
    ensures IsExtensible(r.value)
  {
    CopyOfEnumerable(o);
    var copy := Assign(EmptyObject(), o).value;
    if HasOwnProperty(copy, name) then
      DefineProperty(copy, name, PropertyDescriptor(None, Some(false), None, None))
    else
      DefineProperty(copy, name, PropertyDescriptor(Some(Null), None, Some(true), Some(true)))
  }

  /** In the copy assignLockedValues returns, the writable keys are all its keys except
      `name`, in order. */
  lemma LockedCopyWritableKeys(o: JsObject, name: string)
    ensures var r := AssignLockedValues(o, name).value;
      GetKeysByDescriptor(r, Writable) == Without(r.keys, name)
  {
    var r := AssignLockedValues(o, name).value;
    var w := Without(r.keys, name);
    forall k
      ensures k in w <==> k in r.props && Flag(r.props[k], Writable)
    {
      if k in r.props {
        assert k in r.keys;
        assert r.props[k].writable <==> k != name;
      } else {
        assert k !in r.keys;
      }
    }
    GetKeysByDescriptorIsExact(r, Writable, w);
  }

  /** In that copy a write to `name` is refused, while every other key, present or new,
      still accepts one. */
  lemma LockedCopyRejectsWrites(o: JsObject, name: string, k: string, v: Value)
    ensures var r := AssignLockedValues(o, name).value;
      && Set(r, name, v).None?
      && (k != name ==> Set(r, k, v).Some?)
  {
  }

  /** freezeAllInObject(object): a frozen shallow copy of `o`. It cannot fail; it holds the
      own enumerable keys of `o`, in order, with their values, every one non-writable and
      non-configurable, and it is not extensible. */
  function FreezeAllInObject(o: JsObject): (r: Option<JsObject>)
    ensures r.Some?
    ensures r.value.keys == GetKeysByDescriptor(o, Enumerable)
    ensures forall k | k in r.value.props ::
              k in o.props && r.value.props[k] == Property(o.props[k].value, false, true, false)
    ensures !IsExtensible(r.value) && IsFrozen(r.value) && IsObjectAnyFrozen(r.value)
  {
    CopyOfEnumerable(o);
    var copy := Assign(EmptyObject(), o).value;
    Freeze(copy)
  }

  /** The copy freezeAllInObject returns refuses every change: a definition succeeds only
      when it asks for what the property already has, and then changes nothing; every write
      fails; a deletion succeeds only for a key the copy does not have. */
  lemma FrozenCopyRefusesChanges(o: JsObject, key: string, d: PropertyDescriptor, v: Value)
    ensures var r := FreezeAllInObject(o).value;
      && (DefineProperty(r, key, d).Some? <==> key in r.props && Satisfies(r.props[key], d))
      && (DefineProperty(r, key, d).Some? ==> DefineProperty(r, key, d).value == r)
      && Set(r, key, v).None?
      && (Delete(r, key).Some? <==> key !in r.props)
      && (Delete(r, key).Some? ==> Delete(r, key).value == r)
  {
    FrozenRefusesChanges(FreezeAllInObject(o).value, key, d, v);
  }

  /** `{a: 1, b: 2}` built by assignment, so every attribute of both keys is true. */
  function TwoKeyObject(): JsObject {
    Obj(["a", "b"], map["a" := Property(Opaque(1), true, true, true),
                        "b" := Property(Opaque(2), true, true, true)], true)
  }

  /** In `{a: 1, b: 2}` every key has every attribute, so each attribute selects both
      keys, in order. */
  lemma TwoKeyObjectSelectsBoth(d: DescriptorName)
    ensures GetKeysByDescriptor(TwoKeyObject(), d) == ["a", "b"]
  {
  }

  /** Locking `a` in `{a: 1, b: 2}` keeps both keys, in order. */
  lemma LockedKeyScenarioKeys()
    ensures AssignLockedValues(TwoKeyObject(), "a").value.keys == ["a", "b"]
  {
    TwoKeyObjectSelectsBoth(Enumerable);
    assert "a" in TwoKeyObject().props && TwoKeyObject().props["a"].enumerable;
  }

  /** Locking `a` in `{a: 1, b: 2}` leaves only `b` writable. */
  lemma LockedKeyScenario()
    ensures GetKeysByDescriptor(AssignLockedValues(TwoKeyObject(), "a").value, Writable) == ["b"]
  {
    LockedKeyScenarioKeys();
    LockedCopyWritableKeys(TwoKeyObject(), "a");
    assert Without(["a", "b"], "a") == ["b"];
  }

  /** Locking `x` in `{}` gives `{x: null}` with `x` non-writable, enumerable and
      configurable. */
  lemma LockedKeyOnEmptyObject()
    ensures var r := AssignLockedValues(EmptyObject(), "x").value;
      && r.keys == ["x"]
      && r.props == map["x" := Property(Null, false, true, true)]
  {
  }
}

=== FILE: Objects.dfy ===
/** Ordinary JavaScript objects restricted to string-keyed data properties: what the
    helpers of src/index.js read and build. */
module Objects {
  import opened Wrappers
  import opened Sequences

  /** A property value. The helpers never look inside a value, so apart from the two values
      they name (`undefined`, the default of a new property, and `null`) every value is
      opaque and identified only by which value it is. */
  datatype Value = Undefined | Null | Opaque(id: nat)

  /** A data property: its value and its three attribute flags. */
  datatype Property = Property(value: Value, writable: bool, enumerable: bool, configurable: bool)

  /** The descriptor names getKeysByDescriptor accepts. */
  datatype DescriptorName = Writable | Enumerable | Configurable

  /** The attribute `d` of `p`. */
  function Flag(p: Property, d: DescriptorName): bool {
    match d
    case Writable => p.writable
    case Enumerable => p.enumerable
    case Configurable => p.configurable
  }

  /** An object: its own keys in property-creation order (OrdinaryOwnPropertyKeys, section
      10.1.11.1 of ECMA-262, for non-index string keys), the property behind each key, and
      the [[Extensible]] slot. */
  datatype Obj = Obj(keys: seq<string>, props: map<string, Property>, extensible: bool)

  /** The key list names each own property exactly once. */
  predicate WellFormed(o: Obj) {
    && Distinct(o.keys)
    && (forall i | 0 <= i < |o.keys| :: o.keys[i] in o.props)
    && (forall k | k in o.props :: k in o.keys)
  }

  type JsObject = o: Obj | WellFormed(o) witness Obj([], map[], true)

  /** The object literal `{}`: no own properties, extensible. */
  function EmptyObject(): JsObject {
    Obj([], map[], true)
  }

  /** A property descriptor as ToPropertyDescriptor builds it from an object literal: a field
      the literal omits is `None`. Accessor fields are not modelled. */
  datatype PropertyDescriptor = PropertyDescriptor(
    value: Option<Value>,
    writable: Option<bool>,
    enumerable: Option<bool>,
    configurable: Option<bool>)

  /** A descriptor with no fields at all. */
  predicate IsEmptyDescriptor(d: PropertyDescriptor) {
    d.value.None? && d.writable.None? && d.enumerable.None? && d.configurable.None?
  }

  /** Every field `d` has agrees with `p`. */
  predicate Satisfies(p: Property, d: PropertyDescriptor) {
    && (d.value.Some? ==> p.value == d.value.value)
    && (d.writable.Some? ==> p.writable == d.writable.value)
    && (d.enumerable.Some? ==> p.enumerable == d.enumerable.value)
    && (d.configurable.Some? ==> p.configurable == d.configurable.value)
  }

  /** Every field `d` lacks is the same in `p` as in `current`. */
  predicate KeepsAbsent(p: Property, current: Property, d: PropertyDescriptor) {
    && (d.value.None? ==> p.value == current.value)
    && (d.writable.None? ==> p.writable == current.writable)
    && (d.enumerable.None? ==> p.enumerable == current.enumerable)
    && (d.configurable.None? ==> p.configurable == current.configurable)
  }

  /** The property a descriptor creates on a key that had none: absent fields take their
      default values, `undefined` and false (step 2.d of ValidateAndApplyPropertyDescriptor,
      section 10.1.6.3 of ECMA-262). */
  function Create(d: PropertyDescriptor): (p: Property)
    ensures Satisfies(p, d)
    ensures KeepsAbsent(p, Property(Undefined, false, false, false), d)
  {
    Property(d.value.GetOr(Undefined), d.writable.GetOr(false),
             d.enumerable.GetOr(false), d.configurable.GetOr(false))
  }

  /** The property after `d` is applied to an existing `current` (step 6): each present field
      overwrites the matching attribute. */
  function Update(current: Property, d: PropertyDescriptor): (p: Property)
    ensures Satisfies(p, d)
    ensures KeepsAbsent(p, current, d)
  {
    Property(d.value.GetOr(current.value), d.writable.GetOr(current.writable),
             d.enumerable.GetOr(current.enumerable), d.configurable.GetOr(current.configurable))
  }
}

=== FILE: Sequences.dfy ===
/** Facts about finite sequences used for ordered key lists: distinctness, order-preserving
    subsequences, and removal of one element. */
module Sequences {

  /** No element occurs twice. */
  predicate Distinct<T(==)>(s: seq<T>) {
    forall i, j | 0 <= i < j < |s| :: s[i] != s[j]
  }

  /** `a` is obtained from `b` by deleting some elements, keeping the order of the rest. */
  ghost predicate IsSubsequence<T>(a: seq<T>, b: seq<T>)
    decreases |b|
  {
    if |a| == 0 then true
    else if |b| == 0 then false
    else (a[|a| - 1] == b[|b| - 1] && IsSubsequence(a[..|a| - 1], b[..|b| - 1]))
         || IsSubsequence(a, b[..|b| - 1])
  }

  /** `s` with every occurrence of `x` removed, the order of the rest kept. */
  function Without<T(==)>(s: seq<T>, x: T): (r: seq<T>)
    ensures forall y :: y in r ==> y in s && y != x
    ensures forall y :: y in s && y != x ==> y in r
    ensures IsSubsequence(r, s)
    ensures Distinct(s) ==> Distinct(r)
    decreases |s|
  {
    if |s| == 0 then []
    else
      var init, last := s[..|s| - 1], s[|s| - 1];
      var rest := Without(init, x);
      assert s == init + [last];
      SubsequenceExtend(rest, init, last);
      if last == x then
        rest
      else
        assert Distinct(s) ==> last !in rest;
        rest + [last]
  }

  /** Removing an element the sequence does not hold changes nothing; removing one that was
      just appended to such a sequence gives it back. */
  lemma {:induction false} WithoutAbsent<T>(s: seq<T>, x: T)
    requires x !in s
    ensures Without(s, x) == s
    ensures Without(s + [x], x) == s
    decreases |s|
  {
    assert (s + [x])[..|s|] == s;
    if |s| > 0 {
      WithoutAbsent(s[..|s| - 1], x);
      assert s == s[..|s| - 1] + [s[|s| - 1]];
    }
  }

  /** Appending the same element to both sides, or only to the longer side, keeps a subsequence. */
  lemma SubsequenceExtend<T>(a: seq<T>, b: seq<T>, x: T)
    requires IsSubsequence(a, b)
    ensures IsSubsequence(a, b + [x])
    ensures IsSubsequence(a + [x], b + [x])
  {
    assert (b + [x])[..|b|] == b;
    assert (a + [x])[..|a|] == a;
  }

  /** Every sequence is a subsequence of itself. */
  lemma {:induction false} SubsequenceReflexive<T>(s: seq<T>)
    ensures IsSubsequence(s, s)
    decreases |s|
  {
    if |s| > 0 {
      SubsequenceReflexive(s[..|s| - 1]);
    }
  }

  /** Every element of a subsequence is an element of the whole. */
  lemma {:induction false} SubsequenceMembers<T>(a: seq<T>, b: seq<T>)
    requires IsSubsequence(a, b)
    ensures forall x :: x in a ==> x in b
    decreases |b|
  {
    if |a| == 0 {
    } else if a[|a| - 1] == b[|b| - 1] && IsSubsequence(a[..|a| - 1], b[..|b| - 1]) {
      SubsequenceMembers(a[..|a| - 1], b[..|b| - 1]);
      assert a == a[..|a| - 1] + [a[|a| - 1]];
      assert b == b[..|b| - 1] + [b[|b| - 1]];
    } else {
      SubsequenceMembers(a, b[..|b| - 1]);
      assert b == b[..|b| - 1] + [b[|b| - 1]];
    }
  }

  /** A subsequence of a sequence without duplicates has no duplicates. */
  lemma {:induction false} SubsequenceDistinct<T>(a: seq<T>, b: seq<T>)
    requires IsSubsequence(a, b)
    requires Distinct(b)
    ensures Distinct(a)
    decreases |b|
  {
    if |a| == 0 {
    } else if a[|a| - 1] == b[|b| - 1] && IsSubsequence(a[..|a| - 1], b[..|b| - 1]) {
      var a', b' := a[..|a| - 1], b[..|b| - 1];
      SubsequenceDistinct(a', b');
      SubsequenceMembers(a', b');
      assert b[|b| - 1] !in b';
      assert a == a' + [a[|a| - 1]];
    } else {
      SubsequenceDistinct(a, b[..|b| - 1]);
    }
  }

  /** Two subsequences of the same duplicate-free sequence that hold the same elements are
      equal: an element set picks out exactly one order-preserving selection. */
  lemma {:induction false} SubsequenceUnique<T>(a: seq<T>, c: seq<T>, b: seq<T>)
    requires IsSubsequence(a, b) && IsSubsequence(c, b)
    requires Distinct(b)
    requires forall x :: x in a <==> x in c
    ensures a == c
    decreases |b|
  {
    if |b| == 0 {
      assert |a| == 0 && |c| == 0;
    } else if b[|b| - 1] in a {
      var a', c' := DropCommonLast(a, c, b);
      SubsequenceUnique(a', c', b[..|b| - 1]);
    } else {
      NotLastStaysInPrefix(a, b);
      NotLastStaysInPrefix(c, b);
      SubsequenceUnique(a, c, b[..|b| - 1]);
    }
  }

  /** When the last element of `b` is in both subsequences, removing it from both leaves
      subsequences of the rest of `b` that still hold the same elements. */
  lemma DropCommonLast<T>(a: seq<T>, c: seq<T>, b: seq<T>) returns (a': seq<T>, c': seq<T>)
    requires IsSubsequence(a, b) && IsSubsequence(c, b)
    requires Distinct(b)
    requires forall x :: x in a <==> x in c
    requires |b| > 0 && b[|b| - 1] in a
    ensures a == a' + [b[|b| - 1]] && c == c' + [b[|b| - 1]]
    ensures IsSubsequence(a', b[..|b| - 1]) && IsSubsequence(c', b[..|b| - 1])
    ensures Distinct(b[..|b| - 1])
    ensures forall x :: x in a' <==> x in c'
  {
    a' := DropLast(a, b);
    c' := DropLast(c, b);
    SameElementsAfterDrop(a, c, a', c', b[|b| - 1]);
  }

  /** Dropping the same last element from two duplicate-free sequences with equal elements
      leaves sequences with equal elements. */
  lemma SameElementsAfterDrop<T>(a: seq<T>, c: seq<T>, a': seq<T>, c': seq<T>, x: T)
    requires a == a' + [x] && c == c' + [x]
    requires Distinct(a) && Distinct(c)
    requires forall y :: y in a <==> y in c
    ensures forall y :: y in a' <==> y in c'
  {
    forall y | y in a'
      ensures y in c'
    {
      var i :| 0 <= i < |a'| && a'[i] == y;
      assert a[i] == y && a[|a| - 1] == x && i < |a| - 1;
      assert y != x;
      assert y in c;
      assert y in c' + [x];
    }
    forall y | y in c'
      ensures y in a'
    {
      var i :| 0 <= i < |c'| && c'[i] == y;
      assert c[i] == y && c[|c| - 1] == x && i < |c| - 1;
      assert y != x;
      assert y in a;
      assert y in a' + [x];
    }
  }

  /** When the last element of `b` is in the subsequence `a`, it is `a`'s last element too,
      and what precedes it is a subsequence of what precedes it in `b`. */
  lemma DropLast<T>(a: seq<T>, b: seq<T>) returns (a': seq<T>)
    requires IsSubsequence(a, b) && Distinct(b)
    requires |b| > 0 && b[|b| - 1] in a
    ensures a == a' + [b[|b| - 1]]
    ensures IsSubsequence(a', b[..|b| - 1])
    ensures Distinct(a)
  {
    SubsequenceDistinct(a, b);
    var b' := b[..|b| - 1];
    assert b == b' + [b[|b| - 1]];
    if a[|a| - 1] == b[|b| - 1] && IsSubsequence(a[..|a| - 1], b') {
      a' := a[..|a| - 1];
    } else {
      SubsequenceMembers(a, b');
      assert false;
    }
  }

  /** A subsequence that avoids the last element of `b` is a subsequence of the rest of `b`. */
  lemma NotLastStaysInPrefix<T>(a: seq<T>, b: seq<T>)
    requires IsSubsequence(a, b)
    requires |b| > 0 && b[|b| - 1] !in a
    ensures IsSubsequence(a, b[..|b| - 1])
  {
    if |a| > 0 {
      assert a[|a| - 1] in a;
    }
  }
}

=== FILE: Wrappers.dfy ===
/** Optional values: the built-ins of BuiltIns.dfy answer `None` where ECMA-262 makes
    them return false (or throw a TypeError). */
module Wrappers {

  datatype Option<+T> = None | Some(value: T) {

    /** The encapsulated value, or `default` when there is none. */
    function GetOr(default: T): T {
      match this
      case Some(v) => v
      case None => default
    }
  }
}
